=== FILE: README.md ===
# A verified model of the numbertests decimal conformance harness

`test.go` runs decimal conformance-test scripts against the arbitrary-precision
decimal engine `github.com/djfritz/number`. It reads a script line by line,
lowercases each line, and hands it to `process`:

- empty lines, `--` comments and the `version`, `extended`, `maxexponent` and
  `minexponent` directives are ignored;
- `precision:` sets the precision that results are rounded to;
- `rounding:` selects the rounding mode, or marks the following tests as
  skipped when the engine has no such mode;
- every other line is a test: `name op 'left' 'right' -> 'expected'`. That
  includes a line of white space only and an indented comment such as
  ` -- x`, since only the empty line and lines that start with a keyword are
  recognised.

A test parses its operands and its expected value, applies one of `add`,
`divide`, `multiply` or `power`, rounds the result to the precision, and
compares renderings. It counts a success or a failure. These lines are fatal
(`log.Fatalf`, or an index panic) and end the run:

- a precision line whose first field is missing, or is not a decimal that
  fits in 64 bits;
- a rounding line whose token is outside the vocabulary;
- a test line, while `skip` is not set, with fewer than six fields, with a
  number the engine's `ParseReal` rejects, or with an unknown operator.

Everything else is accepted. That includes text after the precision value
(`precision: 9 junk` sets 9), a fifth field other than `->`, operands without
quotes, and test lines with more than six fields. While `skip` is set a test
line is only counted as skipped, whatever it holds.

The model is split into these modules:

- `GoStrings` (`gostrings.dfy`) holds the Go library functions the harness
  relies on: `strings.TrimPrefix`, `strings.TrimSpace`, `strings.Trim`,
  `strings.Fields` and `strconv.ParseUint(s, 10, 64)`. Each is given with the
  properties the harness needs, such as Fields undoing a blank-separated join,
  trimming undoing padding, and ParseUint's exact acceptance condition.
- `Number` (`number.dfy`) is the engine's interface. The engine is abstract:
  an `Engine` value bundles `ParseReal`, `SetMode`, `Add`, `Div`, `Mul`,
  `Pow`, `SetPrecision`, `String` and the three mode constants. Every
  property holds for every engine.
- `Script` (`script.dfy`) holds the pure decisions on one line:
  - the prefix classifier;
  - the precision and rounding directive parsers;
  - the rounding vocabulary;
  - the test-line tokenizer;
  - the operator table and the evaluation of one test.
- `Harness` (`harness.dfy`) holds the session and the counters. `Step` and
  `RunScript` specify the effect of one line and of a whole script on a
  `SessionState` value. The class `Session` keeps the same seven
  package-level variables as fields. Its methods `Process`,
  `ProcessPrecision`, `ProcessRounding`, `ProcessTest` and `Run` (the line
  loop of `main`) are proved to follow `Step` and `RunScript`.
- `Scenarios` (`scenarios.dfy`) works two short scripts through end to end.

`log.Fatalf` is modelled as an outcome `Fatal(error)` after which no further
line is processed.

## Model

| member | source | states |
|---|---|---|
| GoStrings.TrimPrefix | test.go:85 | `strings.TrimPrefix`: when the line starts with the prefix, the prefix followed by the result is the line; otherwise the line is returned unchanged |
| GoStrings.TrimPrefixOfConcat | test.go:85 | `strings.TrimPrefix` removes a prefix that is present, leaving exactly the rest |
| GoStrings.TrimFunc | test.go:85 | the trimmed string is a slice of the input; it starts after the leading cut characters, only cut characters follow it, and neither of its ends is a cut character |
| GoStrings.TrimSpace | test.go:85 | `strings.TrimSpace`: the trimming of `TrimFunc` with `unicode.IsSpace` as the cut set |
| GoStrings.Trim | test.go:136-138 | `strings.Trim(s, cutset)`: the trimming of `TrimFunc` with membership in `cutset` as the cut set |
| GoStrings.TrimFuncUnpads | test.go:136-138 | trimming undoes padding: when the cut set is a single character, as `'` is here, any number of copies of it on either side of a string that neither starts nor ends with it are all removed, and nothing else is |
| GoStrings.TrimSpaceUnpads | test.go:85 | `strings.TrimSpace` of a word with white space around it is the word |
| GoStrings.Fields | test.go:86 | every field of `strings.Fields` is non-empty and contains no white space |
| GoStrings.FieldsKeepNonSpace | test.go:129 | the fields, laid end to end, are exactly the non-space characters of the line, in order |
| GoStrings.FieldsOfJoin | test.go:129 | splitting blank-separated words gives back exactly those words |
| GoStrings.FieldsOfTrimSpace | test.go:85-86 | trimming white space never changes the fields of a string |
| GoStrings.FieldsSkipsLeadingSpace | test.go:86 | leading white space adds no field |
| GoStrings.FieldsSkipsTrailingSpace | test.go:86 | trailing white space adds no field |
| GoStrings.FieldsOfPaddedWord | test.go:85-86 | after optional blanks, a word followed by a blank or by nothing is the first field |
| GoStrings.FieldsOfAllSpace | test.go:129 | a string of white space only has no fields |
| GoStrings.ParseDigitsValue | test.go:87 | the digit loop succeeds exactly on all-digit input whose accumulated value fits in 64 bits, and then yields that value |
| GoStrings.ParseUint | test.go:87 | `strconv.ParseUint(s, 10, 64)` succeeds exactly on a non-empty string of decimal digits whose value is at most 2^64-1, and then returns that value |
| Script.Classify | test.go:58-82 | the prefix chain: ignored exactly for the empty line and for `--`, `version`, `extended`, `maxexponent` and `minexponent` lines; precision exactly for lines starting with `precision`; rounding exactly for lines starting with `rounding`; a test case exactly otherwise |
| Script.ParsePrecision | test.go:85-91 | the fields of the trimmed text after `precision:`: fatal `PrecisionMissing` exactly when there is none; otherwise a value exactly when the first field is all digits and fits in 64 bits, and then it is that field's decimal value; in every other case fatal naming that field |
| Script.RoundingToken | test.go:99 | the text after `rounding:`, trimmed of white space |
| Script.LookupRounding | test.go:101-112 | the rounding vocabulary: a mode exactly for `half_even`, `half_up`, `down` and `zero`, a skip exactly for `half_down`, `floor`, `ceiling` and `up`, unknown otherwise; a selected mode is one of the engine's three |
| Script.PrecisionOfDigits | test.go:84-91 | `precision:`, optional blanks and a decimal that fits in 64 bits yield that value, whatever follows after a blank |
| Script.PrecisionMissingValue | test.go:85-87 | `precision:` followed only by white space is fatal, because there is no field to parse |
| Script.PrecisionWithoutColon | test.go:84-89 | a `precision` line without the colon keeps its keyword as the first field, which never parses: fatal |
| Script.RoundingWithoutColon | test.go:98-111 | a `rounding` line without the colon keeps its keyword in the token, which is never in the vocabulary: fatal |
| Script.ParseTestLine | test.go:129-138 | a test line fails exactly when it has fewer than six whitespace fields |
| Script.TestLineOfWords | test.go:129-138 | a line of six or more blank-separated words yields name, operator, quote-trimmed operands and quote-trimmed expected value from words 0, 1, 2, 3 and 5 |
| Script.TrimQuotes | test.go:136-138 | `strings.Trim(field, "'")` |
| Script.TrimQuotesUnpads | test.go:136-138 | every leading and trailing `'` is removed, however many there are, and the quote-free text inside is kept whole |
| Script.FifthFieldIgnored | test.go:129-138 | two lines whose whitespace fields agree everywhere except in the fifth (the arrow) parse to the same test, however the fields are spaced |
| Script.ParseOperator | test.go:161-172 | the dispatch table accepts exactly `add`, `divide`, `multiply` and `power`, each for the operator of that name |
| Script.ParseOperatorName | test.go:161-172 | every operator's name is dispatched to that operator |
| Script.Apply | test.go:160-172 | the engine call for the operator: `Add`, `Div`, `Mul` or `Pow` |
| Script.Rendered | test.go:157-180 | `SetMode` on both operands, the operation, `SetPrecision` with the session's precision, then `String` |
| Script.Evaluate | test.go:144-172 | a test evaluates exactly when all three numbers parse and the operator is one of `add`, `divide`, `multiply` and `power`; an unknown operator is reported only after all three numbers have parsed |
| Harness.PrecisionStep | test.go:84-91 | a precision line is fatal exactly when parsing fails, and otherwise sets the precision to the parsed value and changes nothing else |
| Harness.RoundingStep | test.go:98-112 | a rounding line is fatal exactly for a token outside the vocabulary; otherwise only the mode and `skip` change, `skip` ends up set exactly for a skipped mode, and a skipped mode keeps the mode |
| Harness.TestOutcome | test.go:144-185 | fatal exactly when evaluation fails; otherwise one test is counted with a success exactly when the test passed and a failure exactly when it did not, and nothing else changes |
| Harness.TestStep | test.go:119-185 | while `skip` is set a test line is never fatal; a test line that is not fatal counts one test and exactly one of skipped, success or failure, skipped exactly when `skip` is set, and leaves the session alone |
| Harness.Step | test.go:58-82 | routes a line by `Classify`; a line that is not fatal keeps `testCount == success + fail + skipped` |
| Harness.RunScript | test.go:47-49 | feeds the lines in order and stops at the first fatal one; a script that is not fatal keeps `testCount == success + fail + skipped` |
| Harness.IgnoredLineChangesNothing | test.go:58-74 | ignored lines change neither the session nor any counter |
| Harness.PrecisionDirectiveEffect | test.go:75-91 | a precision line is fatal exactly when parsing fails; otherwise it changes the precision and nothing else |
| Harness.PrecisionLine | test.go:76-77 | a `precision:` line is routed to the precision handler |
| Harness.PrecisionDirectiveSetsValue | test.go:84-91 | `precision: n` sets the precision to n, for every n that fits in 64 bits |
| Harness.PrecisionValueMissingFatal | test.go:85-87 | `precision:` followed only by white space stops the run with `PrecisionMissing` |
| Harness.PrecisionColonMissingFatal | test.go:84-90 | `precision` without the colon stops the run |
| Harness.RoundingLine | test.go:77-99 | a `rounding:` line is routed to the rounding handler with the trimmed remainder as its token |
| Harness.RoundingDirectiveEffect | test.go:98-112 | the rounding vocabulary on the session: `half_even`, `half_up` and `down`/`zero` select a mode and clear `skip`; `half_down`, `floor`, `ceiling` and `up` set `skip` and keep the mode; any other token is fatal; the precision and the counters never change |
| Harness.RoundingWithoutColonFatal | test.go:77-111 | a `rounding` line without the colon stops the run |
| Harness.StepTouchesItsOwnState | test.go:58-82 | directives never change a counter, and test lines never change the precision, the mode or `skip` |
| Harness.SkippedTestConsultsNothing | test.go:119-127 | while `skip` is set, a test line counts one test and one skip, with no field check and no parsing, and the outcome is the same for every engine |
| Harness.WhiteSpaceLineIsTest | test.go:58-132 | only the empty line is ignored: a non-empty line of white space is a test line, fatal with `TestLineShort` when `skip` is not set, and counted as one skipped test when it is |
| Harness.ShortTestLineFatal | test.go:129-133 | an unskipped test line with fewer than six fields stops the run |
| Harness.TestVerdict | test.go:144-185 | an unskipped test line is not fatal exactly when it parses and evaluates; it then counts one test and a success exactly when the rounded result renders as the expected value does, a failure otherwise |
| Harness.ArrowIgnored | test.go:129-138 | two test lines whose whitespace fields agree everywhere except in the fifth (the arrow) have the same effect, however they are spaced |
| Harness.RunScriptAppend | test.go:47-49 | feeding two scripts one after the other is feeding their concatenation |
| Harness.FatalIsFinal | test.go:47-49 | once a line is fatal, no later line is processed |
| Harness.RunScriptCountsTests | test.go:47-49 | a script that is not fatal counts each of its test lines exactly once |
| Harness.IgnoredScriptChangesNothing | test.go:47-74 | a script of ignored lines changes nothing |
| Harness.Session.constructor | test.go:28-36 | the session starts from Go's zero values |
| Harness.Session.ProcessPrecision | test.go:84-96 | sets the precision to the parsed value, or is fatal and changes nothing |
| Harness.Session.ProcessRounding | test.go:98-117 | clears `skip`, then selects a mode, sets `skip` or is fatal, as the vocabulary says |
| Harness.Session.ProcessTest | test.go:119-138 | counts the test first, then counts it skipped, or is fatal on a short line, or runs it; the result is the one `Step` specifies |
| Harness.Session.RunTest | test.go:144-185 | parses the three numbers, dispatches the operator, rounds and compares; the new state is `TestOutcome`'s for the session before the test was counted (a success or a failure by the verdict), or it is fatal and changes nothing |
| Harness.Session.Process | test.go:58-82 | routes a line by its prefix; the outcome and the new session are the ones `Step` specifies |
| Harness.Session.Run | test.go:46-49 | feeds the lines in order and stops at the first fatal one; the result is the one `RunScript` specifies, and a balanced session stays balanced |
| Scenarios.FloorSkipsExample | test.go:98-127 | `rounding: floor` followed by a test counts one skipped test and nothing else, for every engine |
| Scenarios.HalfEvenAddExample | test.go:58-185 | `precision: 9`, `rounding: half_even` and `test1 add '1' '2' -> '3'` count one test with one verdict; it is a success exactly when the engine's rounded sum renders as 3 does |

## Left out

- File opening, `bufio.Scanner`, scanner errors and `strings.ToLower` (test.go:41-53) are I/O. The input is a sequence of lines that are already lowercased.
- Command-line flags (test.go:24-25, 39), verbose output, the failure log line and the final summary are reporting only. They have no effect on the state.
- The engine `github.com/djfritz/number` is not part of this model. Its value type is abstract and its operations are the fields of an `Engine` value. `SetMode` and `SetPrecision` are modelled as returning the changed value.
- The integer values of `number.ModeNearestEven`, `number.ModeNearest` and `number.ModeDown` are not part of this model. They are fields of the engine.
- `log.Fatalf` ends the process. Here it is the outcome `Fatal(error)` and `Run` stops there. After a fatal line the session's fields are left unspecified by `Process`, except where `ProcessTest` and the directive methods state them.
- A missing precision value is a Go index-out-of-range panic at test.go:87. It is modelled as the same terminal outcome as `log.Fatalf`.
- The counters are unbounded `nat`, so Go `int` overflow is not modelled. `uint` is taken to be 64 bits wide, so every value `strconv.ParseUint` accepts fits in `precision`.
- Strings are sequences of Unicode code points. Invalid UTF-8 is not modelled. `unicode.IsSpace` is written out for every code point it accepts.
- The text of the fatal diagnostics is not modelled. Each fatal outcome carries the token or line it is about, except `PrecisionMissing`, which carries nothing.
- `test.go` has a single test-line form: no variable-arity lines, no `#` or `?` sentinels and no operators beyond `add`, `divide`, `multiply` and `power`. The model has none of these either. Quotes are stripped with `strings.Trim` (test.go:136-138), which removes every leading and trailing `'`, and the model does the same.

=== FILE: gostrings.dfy ===
/**
  The pieces of Go's `strings`, `unicode` and `strconv` packages that the
  harness uses, over strings of Unicode code points: `unicode.IsSpace`,
  `strings.TrimPrefix`, `strings.Trim`, `strings.TrimSpace`,
  `strings.Fields` and `strconv.ParseUint(s, 10, 64)`.
 */
module GoStrings {
  import opened Wrappers

  const MaxUint64: nat := 0xFFFF_FFFF_FFFF_FFFF

  /** Go's `uint64`. */
  type Uint64 = x: nat | x <= MaxUint64

  /** `unicode.IsSpace`: the characters with the Unicode White_Space property. */
  predicate IsSpace(c: char) {
    ('\t' <= c <= '\r') || c == ' ' || c == '\U{0085}' || c == '\U{00A0}' || c == '\U{1680}' ||
    ('\U{2000}' <= c <= '\U{200A}') || c == '\U{2028}' || c == '\U{2029}' || c == '\U{202F}' ||
    c == '\U{205F}' || c == '\U{3000}'
  }

  /** No white space anywhere in `s`. */
  predicate NoSpace(s: string) {
    forall k :: 0 <= k < |s| ==> !IsSpace(s[k])
  }

  /** Nothing but white space in `s`. */
  predicate AllSpace(s: string) {
    forall k :: 0 <= k < |s| ==> IsSpace(s[k])
  }

  /** `strings.TrimPrefix`: drops `prefix` when `s` starts with it. */
  function TrimPrefix(s: string, prefix: string): (r: string)
    ensures prefix <= s ==> prefix + r == s
    ensures !(prefix <= s) ==> r == s
  {
    if prefix <= s then s[|prefix|..] else s
  }

  lemma TrimPrefixOfConcat(p: string, t: string)
    ensures TrimPrefix(p + t, p) == t
  {
    assert p <= p + t;
  }

  // ---------------------------------------------------------------------
  // Trimming: `strings.Trim(s, cutset)` and `strings.TrimSpace(s)`
  // ---------------------------------------------------------------------

  /** The number of leading characters of `s` that `cut` accepts. */
  function LeadingCount(s: string, cut: char -> bool): (n: nat)
    ensures n <= |s|
    ensures forall k :: 0 <= k < n ==> cut(s[k])
    ensures n < |s| ==> !cut(s[n])
    decreases |s|
  {
    if s != [] && cut(s[0]) then 1 + LeadingCount(s[1..], cut) else 0
  }

  /** Drops every leading character that `cut` accepts. */
  function TrimLeft(s: string, cut: char -> bool): string {
    s[LeadingCount(s, cut)..]
  }

  /** Drops every trailing character that `cut` accepts. */
  function TrimRight(s: string, cut: char -> bool): (r: string)
    ensures |r| <= |s| && r == s[..|r|]
    ensures forall k :: |r| <= k < |s| ==> cut(s[k])
    ensures r == [] || !cut(r[|r| - 1])
    decreases |s|
  {
    if s != [] && cut(s[|s| - 1]) then TrimRight(s[..|s| - 1], cut) else s
  }

  /**
    `strings.TrimFunc`: removes ALL leading and trailing characters that
    `cut` accepts (not a single pair). The result is the slice of `s` that
    starts right after its leading cut characters, is followed by cut
    characters only, and neither starts nor ends with one.
   */
  function TrimFunc(s: string, cut: char -> bool): (r: string)
    ensures r == [] || (!cut(r[0]) && !cut(r[|r| - 1]))
    ensures LeadingCount(s, cut) + |r| <= |s|
    ensures r == s[LeadingCount(s, cut)..LeadingCount(s, cut) + |r|]
    ensures forall k :: LeadingCount(s, cut) + |r| <= k < |s| ==> cut(s[k])
  {
    TrimRight(TrimLeft(s, cut), cut)
  }

  /** `strings.Trim(s, cutset)`. */
  function Trim(s: string, cutset: string): string {
    TrimFunc(s, c => c in cutset)
  }

  /** `strings.TrimSpace(s)`. */
  function TrimSpace(s: string): string {
    TrimFunc(s, IsSpace)
  }

  /** White space around a word whose ends are not white space is all that TrimSpace removes. */
  lemma TrimSpaceUnpads(pad: string, w: string, post: string)
    requires AllSpace(pad) && AllSpace(post)
    requires w != [] && !IsSpace(w[0]) && !IsSpace(w[|w| - 1])
    ensures TrimSpace(pad + w + post) == w
  {
    var s := pad + w + post;
    var n := LeadingCount(s, IsSpace);
    var r := TrimSpace(s);
    var e := |pad| + |w|;
    assert forall k :: 0 <= k < |pad| ==> s[k] == pad[k];
    assert forall k :: e <= k < |s| ==> s[k] == post[k - e];
    assert s[|pad|] == w[0] && s[e - 1] == w[|w| - 1];
    assert n == |pad|;
    assert |r| == |w|;
    assert r == s[|pad|..|pad| + |w|] == w;
  }

  function Repeat(c: char, n: nat): (r: string)
    ensures |r| == n && forall k :: 0 <= k < n ==> r[k] == c
  {
    if n == 0 then [] else [c] + Repeat(c, n - 1)
  }

  /** `cut` accepts exactly the character `c`. */
  predicate CutsOnly(cut: char -> bool, c: char) {
    forall x :: cut(x) <==> x == c
  }

  lemma {:induction false} TrimLeftUnpads(cut: char -> bool, c: char, i: nat, t: string)
    requires CutsOnly(cut, c)
    requires t == [] || t[0] != c
    ensures TrimLeft(Repeat(c, i) + t, cut) == t
    decreases i
  {
    var s := Repeat(c, i) + t;
    if i == 0 {
      assert s == t;
    } else {
      assert s[0] == c;
      assert s[1..] == Repeat(c, i - 1) + t;
      TrimLeftUnpads(cut, c, i - 1, t);
    }
  }

  lemma {:induction false} TrimRightUnpads(cut: char -> bool, t: string, c: char, j: nat)
    requires CutsOnly(cut, c)
    requires t == [] || t[|t| - 1] != c
    ensures TrimRight(t + Repeat(c, j), cut) == t
    decreases j
  {
    var s := t + Repeat(c, j);
    if j == 0 {
      assert s == t;
    } else {
      assert s[|s| - 1] == c;
      assert s[..|s| - 1] == t + Repeat(c, j - 1);
      TrimRightUnpads(cut, t, c, j - 1);
    }
  }

  /**
    Trimming is the inverse of padding: when `cut` accepts one character
    only, any number of copies of it on either side of a string that
    neither starts nor ends with it are all removed, and nothing else is.
   */
  lemma TrimFuncUnpads(cut: char -> bool, w: string, c: char, i: nat, j: nat)
    requires CutsOnly(cut, c)
    requires w == [] || (w[0] != c && w[|w| - 1] != c)
    ensures TrimFunc(Repeat(c, i) + w + Repeat(c, j), cut) == w
  {
    var padded := w + Repeat(c, j);
    assert Repeat(c, i) + w + Repeat(c, j) == Repeat(c, i) + padded;
    if w == [] {
      assert padded == Repeat(c, j);
      TrimFuncOfPadding(cut, c, i, j);
    } else {
      assert padded[0] == w[0];
      TrimLeftUnpads(cut, c, i, padded);
      TrimRightUnpads(cut, w, c, j);
    }
  }

  /** Padding with nothing inside trims to nothing. */
  lemma TrimFuncOfPadding(cut: char -> bool, c: char, i: nat, j: nat)
    requires CutsOnly(cut, c)
    ensures TrimFunc(Repeat(c, i) + Repeat(c, j), cut) == []
  {
    RepeatAppend(c, i, j);
    assert Repeat(c, i + j) == Repeat(c, i + j) + [];
    TrimLeftUnpads(cut, c, i + j, []);
  }

  /** Two runs of the same character make one run. */
  lemma RepeatAppend(c: char, i: nat, j: nat)
    ensures Repeat(c, i) + Repeat(c, j) == Repeat(c, i + j)
  {
    var a, b := Repeat(c, i) + Repeat(c, j), Repeat(c, i + j);
    assert forall k :: 0 <= k < |a| ==> a[k] == b[k];
  }

  // ---------------------------------------------------------------------
  // `strings.Fields`
  // ---------------------------------------------------------------------

  /** Length of the longest space-free prefix of `s`. */
  function WordLength(s: string): (n: nat)
    ensures n <= |s|
    ensures forall k :: 0 <= k < n ==> !IsSpace(s[k])
    ensures n < |s| ==> IsSpace(s[n])
    decreases |s|
  {
    if s == [] || IsSpace(s[0]) then 0 else 1 + WordLength(s[1..])
  }

  /** The characters of `s` that are not white space, in order. */
  function NonSpace(s: string): string
    decreases |s|
  {
    if s == [] then [] else (if IsSpace(s[0]) then [] else [s[0]]) + NonSpace(s[1..])
  }

  function Concat(ws: seq<string>): string {
    if ws == [] then [] else ws[0] + Concat(ws[1..])
  }

  /** Words separated by single blanks: the layout of a well-formed test line. */
  function Join(ws: seq<string>): string {
    if ws == [] then [] else if |ws| == 1 then ws[0] else ws[0] + " " + Join(ws[1..])
  }

  lemma {:induction false} NonSpaceAppend(a: string, b: string)
    ensures NonSpace(a + b) == NonSpace(a) + NonSpace(b)
    decreases |a|
  {
    if a == [] {
      assert a + b == b;
    } else {
      assert (a + b)[0] == a[0];
      assert (a + b)[1..] == a[1..] + b;
      NonSpaceAppend(a[1..], b);
    }
  }

  lemma {:induction false} NonSpaceOfWord(w: string)
    requires NoSpace(w)
    ensures NonSpace(w) == w
    decreases |w|
  {
    if w != [] {
      NonSpaceOfWord(w[1..]);
    }
  }

  /**
    `strings.Fields`: splits `s` around each run of white space. Every field
    is non-empty and space-free (FieldsKeepNonSpace adds that together they
    hold exactly the non-space characters of `s`, in order).
   */
  function Fields(s: string): (r: seq<string>)
    ensures forall i :: 0 <= i < |r| ==> r[i] != [] && NoSpace(r[i])
    decreases |s|
  {
    if s == [] then []
    else if IsSpace(s[0]) then Fields(s[1..])
    else
      var n := WordLength(s);
      [s[..n]] + Fields(s[n..])
  }

  /** A string of white space only has no fields. */
  lemma {:induction false} FieldsOfAllSpace(s: string)
    requires AllSpace(s)
    ensures Fields(s) == []
    decreases |s|
  {
    if s != [] {
      FieldsOfAllSpace(s[1..]);
    }
  }

  /** The fields of `s`, laid end to end, are the non-space characters of `s`. */
  lemma {:induction false} FieldsKeepNonSpace(s: string)
    ensures Concat(Fields(s)) == NonSpace(s)
    decreases |s|
  {
    if s == [] {
    } else if IsSpace(s[0]) {
      FieldsKeepNonSpace(s[1..]);
    } else {
      var n := WordLength(s);
      FieldsKeepNonSpace(s[n..]);
      assert s == s[..n] + s[n..];
      NonSpaceAppend(s[..n], s[n..]);
      NonSpaceOfWord(s[..n]);
      assert ([s[..n]] + Fields(s[n..]))[1..] == Fields(s[n..]);
    }
  }

  lemma {:induction false} FieldsSkipsLeadingSpace(a: string, s: string)
    requires AllSpace(a)
    ensures Fields(a + s) == Fields(s)
    decreases |a|
  {
    if a == [] {
      assert a + s == s;
    } else {
      assert (a + s)[0] == a[0] && IsSpace(a[0]);
      assert (a + s)[1..] == a[1..] + s;
      FieldsSkipsLeadingSpace(a[1..], s);
    }
  }

  lemma {:induction false} FieldsSkipsTrailingSpace(s: string, b: string)
    requires AllSpace(b)
    ensures Fields(s + b) == Fields(s)
    decreases |s|
  {
    if s == [] {
      assert b == [] + b;
      FieldsSkipsLeadingSpace(b, []);
      assert b + [] == b;
    } else if IsSpace(s[0]) {
      assert (s + b)[1..] == s[1..] + b;
      FieldsSkipsTrailingSpace(s[1..], b);
    } else {
      var n := WordLength(s);
      WordLengthOfPrefix(s, n, b);
      assert (s + b)[..n] == s[..n];
      assert (s + b)[n..] == s[n..] + b;
      FieldsSkipsTrailingSpace(s[n..], b);
    }
  }

  /** The first word of `s + b` is that of `s` when `b` is empty or starts with a space. */
  lemma {:induction false} WordLengthOfPrefix(s: string, n: nat, b: string)
    requires n == WordLength(s)
    requires n == |s| ==> b == [] || IsSpace(b[0])
    ensures WordLength(s + b) == n
    decreases |s|
  {
    if s != [] && !IsSpace(s[0]) {
      assert (s + b)[1..] == s[1..] + b;
      WordLengthOfPrefix(s[1..], n - 1, b);
    }
  }

  /** A string that starts with a word followed by a blank (or nothing) has that word as its first field. */
  lemma FieldsOfWordThen(w: string, rest: string)
    requires w != [] && NoSpace(w)
    requires rest == [] || IsSpace(rest[0])
    ensures Fields(w + rest) == [w] + Fields(rest)
  {
    var s := w + rest;
    assert s[0] == w[0];
    WordLengthOfWord(w);
    WordLengthOfPrefix(w, |w|, rest);
    assert s[..|w|] == w;
    assert s[|w|..] == rest;
  }

  /** After optional blanks, a word followed by a blank (or nothing) is the first field. */
  lemma FieldsOfPaddedWord(pad: string, w: string, rest: string)
    requires AllSpace(pad) && w != [] && NoSpace(w)
    requires rest == [] || IsSpace(rest[0])
    ensures Fields(TrimSpace(pad + (w + rest))) == [w] + Fields(rest)
  {
    FieldsOfTrimSpace(pad + (w + rest));
    FieldsSkipsLeadingSpace(pad, w + rest);
    FieldsOfWordThen(w, rest);
  }

  /** The first field of a string that does not start with white space starts where the string does. */
  lemma FirstField(s: string)
    requires s != [] && !IsSpace(s[0])
    ensures Fields(s) != [] && Fields(s)[0] != [] && Fields(s)[0][0] == s[0]
  {
  }

  /** Digits are not white space. */
  lemma DigitsHaveNoSpace(d: string)
    requires AllDigits(d)
    ensures NoSpace(d)
  {
    forall k | 0 <= k < |d| ensures !IsSpace(d[k]) {
      assert IsDigit(d[k]);
    }
  }

  /** Trimming white space never changes the fields of a string. */
  lemma FieldsOfTrimSpace(s: string)
    ensures Fields(TrimSpace(s)) == Fields(s)
  {
    FieldsOfTrimLeft(s);
    FieldsOfTrimRight(TrimLeft(s, IsSpace));
  }

  lemma FieldsOfTrimLeft(s: string)
    ensures Fields(TrimLeft(s, IsSpace)) == Fields(s)
  {
    var k := LeadingCount(s, IsSpace);
    assert s == s[..k] + s[k..];
    assert AllSpace(s[..k]);
    FieldsSkipsLeadingSpace(s[..k], s[k..]);
  }

  lemma FieldsOfTrimRight(s: string)
    ensures Fields(TrimRight(s, IsSpace)) == Fields(s)
  {
    var r := TrimRight(s, IsSpace);
    assert s == r + s[|r|..];
    assert AllSpace(s[|r|..]);
    FieldsSkipsTrailingSpace(r, s[|r|..]);
  }

  /** Fields undoes Join: splitting blank-separated words gives the words back. */
  lemma {:induction false} FieldsOfJoin(ws: seq<string>)
    requires forall i :: 0 <= i < |ws| ==> ws[i] != [] && NoSpace(ws[i])
    ensures Fields(Join(ws)) == ws
    decreases |ws|
  {
    if ws == [] {
    } else {
      var w := ws[0];
      var tail := if |ws| == 1 then [] else " " + Join(ws[1..]);
      assert Join(ws) == w + tail;
      FieldsOfWordThen(w, tail);
      if |ws| > 1 {
        FieldsOfJoin(ws[1..]);
        assert tail[1..] == Join(ws[1..]);
        assert [w] + ws[1..] == ws;
      }
    }
  }

  lemma {:induction false} WordLengthOfWord(w: string)
    requires NoSpace(w)
    ensures WordLength(w) == |w|
    decreases |w|
  {
    if w != [] {
      WordLengthOfWord(w[1..]);
    }
  }

  // ---------------------------------------------------------------------
  // `strconv.ParseUint(s, 10, 64)`
  // ---------------------------------------------------------------------

  predicate IsDigit(c: char) {
    '0' <= c <= '9'
  }

  predicate AllDigits(s: string) {
    forall k :: 0 <= k < |s| ==> IsDigit(s[k])
  }

  function DigitValue(c: char): nat
    requires IsDigit(c)
  {
    c as int - '0' as int
  }

  /** The value of a string of decimal digits, read from its last digit. */
  function DecimalValue(s: string): nat
    requires AllDigits(s)
  {
    if s == [] then 0 else 10 * DecimalValue(s[..|s| - 1]) + DigitValue(s[|s| - 1])
  }

  function Pow10(n: nat): (p: nat)
    ensures p >= 1
  {
    if n == 0 then 1 else 10 * Pow10(n - 1)
  }

  /**
    Go's digit loop: accumulates from the left, fails on the first
    non-digit, and fails as soon as the accumulated value leaves uint64.
   */
  function ParseDigits(s: string, acc: Uint64): Option<Uint64>
    decreases |s|
  {
    if s == [] then Some(acc)
    else if !IsDigit(s[0]) then None
    else
      var n := 10 * acc + DigitValue(s[0]);
      if n > MaxUint64 then None else ParseDigits(s[1..], n)
  }

  /** Reading one more leading digit scales the rest by a power of ten. */
  lemma {:induction false} DecimalValueCons(c: char, t: string)
    requires IsDigit(c) && AllDigits(t)
    ensures AllDigits([c] + t)
    ensures DecimalValue([c] + t) == DigitValue(c) * Pow10(|t|) + DecimalValue(t)
    decreases |t|
  {
    var s := [c] + t;
    assert AllDigits(s) by {
      forall k | 0 <= k < |s| ensures IsDigit(s[k]) {
        if k > 0 { assert s[k] == t[k - 1]; }
      }
    }
    if t != [] {
      var u, l := t[..|t| - 1], t[|t| - 1];
      assert s[..|s| - 1] == [c] + u;
      assert s[|s| - 1] == l;
      assert t[..|t| - 1] == u;
      DecimalValueCons(c, u);
      var a, p := DigitValue(c), Pow10(|u|);
      calc {
        DecimalValue(s);
        10 * DecimalValue([c] + u) + DigitValue(l);
        10 * (a * p + DecimalValue(u)) + DigitValue(l);
        { TimesTen(a, p); }
        a * (10 * p) + (10 * DecimalValue(u) + DigitValue(l));
        a * Pow10(|t|) + DecimalValue(t);
      }
    }
  }

  lemma TimesTen(a: nat, p: nat)
    ensures 10 * (a * p) == a * (10 * p)
  {
  }

  lemma ShiftDigit(acc: nat, d: nat, p: nat, v: nat)
    ensures acc * (10 * p) + (d * p + v) == (10 * acc + d) * p + v
  {
  }

  lemma AtLeastFactor(n: nat, p: nat)
    requires p >= 1
    ensures n <= n * p
  {
  }

  lemma {:induction false} ParseDigitsValue(s: string, acc: Uint64)
    ensures ParseDigits(s, acc).Some? <==>
              AllDigits(s) && acc * Pow10(|s|) + DecimalValue(s) <= MaxUint64
    ensures ParseDigits(s, acc).Some? ==>
              ParseDigits(s, acc).value == acc * Pow10(|s|) + DecimalValue(s)
    decreases |s|
  {
    if s != [] && IsDigit(s[0]) {
      var t := s[1..];
      assert s == [s[0]] + t;
      assert AllDigits(s) <==> AllDigits(t);
      var n := 10 * acc + DigitValue(s[0]);
      if AllDigits(s) {
        DecimalValueCons(s[0], t);
        ShiftDigit(acc, DigitValue(s[0]), Pow10(|t|), DecimalValue(t));
        AtLeastFactor(n, Pow10(|t|));
      }
      if n <= MaxUint64 {
        ParseDigitsValue(t, n);
      }
    }
  }

  /**
    `strconv.ParseUint(s, 10, 64)`: succeeds exactly on a non-empty string of
    decimal digits (no sign, no underscores) whose value fits in 64 bits,
    and then returns that value.
   */
  function ParseUint(s: string): (r: Option<Uint64>)
    ensures r.Some? <==> s != [] && AllDigits(s) && DecimalValue(s) <= MaxUint64
    ensures r.Some? ==> r.value == DecimalValue(s)
  {
    ParseDigitsValue(s, 0);
    if s == [] then None else ParseDigits(s, 0)
  }
}

=== FILE: harness.dfy ===
/**
  The harness proper: the session (precision, rounding mode, skip flag)
  and the four run counters, the effect of one lowercased script line on
  them, and the loop that feeds a script's lines in order and stops at
  the first fatal error.

  `Step` and `RunScript` are the specification on values; the `Session`
  class holds the same state in fields, as the package-level variables of
  the harness do, and its methods are proved to follow that specification.
 */
module Harness {
  import opened Wrappers
  import opened GoStrings
  import opened Number
  import opened Script

  /** The package-level variables `precision`, `mode`, `skip`, `testCount`, `success`, `fail`, `skipped`. */
  datatype SessionState = SessionState(
    precision: Uint64,
    mode: int,
    skip: bool,
    testCount: nat,
    success: nat,
    fail: nat,
    skipped: nat
  )

  /** Go's zero values, which the process starts from. */
  const Initial := SessionState(0, 0, false, 0, 0, 0, 0)

  /** Every test counted so far has exactly one verdict. */
  predicate Balanced(st: SessionState) {
    st.testCount == st.success + st.fail + st.skipped
  }

  /** Whether the run goes on (with the new state) or stops on a fatal error. */
  datatype StepResult = Next(state: SessionState) | Halt(error: FatalError)

  // ---------------------------------------------------------------------
  // The specification on values
  // ---------------------------------------------------------------------

  /** A precision directive: fatal exactly when parsing fails, otherwise only the precision changes. */
  function PrecisionStep(st: SessionState, s: string): (r: StepResult)
    ensures r.Next? <==> ParsePrecision(s).Ok?
    ensures r.Next? ==> r.state == st.(precision := ParsePrecision(s).value)
  {
    match ParsePrecision(s)
    case Ok(p) => Next(st.(precision := p))
    case Err(e) => Halt(e)
  }

  /**
    A rounding directive: fatal exactly for a token outside the vocabulary;
    otherwise only the mode and `skip` change, `skip` ends up set exactly
    for a skipped mode, and a skipped mode keeps the mode.
   */
  function RoundingStep(eng: Engine, st: SessionState, s: string): (r: StepResult)
    ensures r.Halt? <==> RoundingToken(s) !in ModeTokens && RoundingToken(s) !in SkippedModes
    ensures r.Next? ==> r.state == st.(mode := r.state.mode, skip := r.state.skip)
    ensures r.Next? ==> (r.state.skip <==> RoundingToken(s) in SkippedModes)
    ensures r.Next? && r.state.skip ==> r.state.mode == st.mode
  {
    var cleared := st.(skip := false);
    match LookupRounding(eng, RoundingToken(s))
    case UseMode(m) => Next(cleared.(mode := m))
    case SkipTests => Next(cleared.(skip := true))
    case UnknownMode => Halt(RoundingInvalid(RoundingToken(s)))
  }

  /** Counts a test that was run, by its verdict, or stops on a fatal error. */
  function TestOutcome(st: SessionState, verdict: Result<bool, FatalError>): (r: StepResult)
    ensures r.Halt? <==> verdict.Err?
    ensures r.Next? ==>
              && r.state == st.(testCount := st.testCount + 1, success := r.state.success, fail := r.state.fail)
              && (r.state.success == st.success + 1 && r.state.fail == st.fail <==> verdict.value)
              && (r.state.success == st.success && r.state.fail == st.fail + 1 <==> !verdict.value)
  {
    match verdict
    case Err(e) => Halt(e)
    case Ok(passed) =>
      var counted := st.(testCount := st.testCount + 1);
      if passed then Next(counted.(success := st.success + 1))
      else Next(counted.(fail := st.fail + 1))
  }

  /**
    A test line: when it is not fatal it counts one test and exactly one
    verdict (skipped exactly when `skip` is set), and leaves the session as
    it was. While `skip` is set it is never fatal.
   */
  function TestStep(eng: Engine, st: SessionState, s: string): (r: StepResult)
    ensures st.skip ==> r.Next?
    ensures r.Next? ==>
              var d := r.state;
              && d == st.(testCount := st.testCount + 1, skipped := d.skipped, success := d.success, fail := d.fail)
              && d.skipped + d.success + d.fail == st.skipped + st.success + st.fail + 1
              && d.skipped >= st.skipped && d.success >= st.success && d.fail >= st.fail
              && (d.skipped == st.skipped + 1 <==> st.skip)
  {
    if st.skip then Next(st.(testCount := st.testCount + 1, skipped := st.skipped + 1))
    else match ParseTestLine(s)
      case Err(e) => Halt(e)
      case Ok(t) => TestOutcome(st, Evaluate(eng, st.precision, st.mode, t))
  }

  /** The effect of one line: a line that is not fatal keeps every test accounted for. */
  function Step(eng: Engine, st: SessionState, s: string): (r: StepResult)
    ensures r.Next? && Balanced(st) ==> Balanced(r.state)
  {
    match Classify(s)
    case Ignored => Next(st)
    case PrecisionDirective => PrecisionStep(st, s)
    case RoundingDirective => RoundingStep(eng, st, s)
    case TestCase => TestStep(eng, st, s)
  }

  /** The effect of a script: its lines in order, stopping at the first fatal one. */
  function RunScript(eng: Engine, st: SessionState, lines: seq<string>): (r: StepResult)
    ensures r.Next? && Balanced(st) ==> Balanced(r.state)
    decreases |lines|
  {
    if lines == [] then Next(st)
    else match Step(eng, st, lines[0])
      case Next(st') => RunScript(eng, st', lines[1..])
      case Halt(e) => Halt(e)
  }

  // ---------------------------------------------------------------------
  // One line
  // ---------------------------------------------------------------------

  /** Blank lines, comments and inapplicable directives change nothing. */
  lemma IgnoredLineChangesNothing(eng: Engine, st: SessionState, s: string)
    requires IsIgnored(s)
    ensures Step(eng, st, s) == Next(st)
  {
  }

  /** A precision directive changes the precision and nothing else, or is fatal. */
  lemma PrecisionDirectiveEffect(eng: Engine, st: SessionState, s: string)
    requires "precision" <= s
    ensures Step(eng, st, s).Next? <==> ParsePrecision(s).Ok?
    ensures Step(eng, st, s).Next? ==>
              Step(eng, st, s).state == st.(precision := ParsePrecision(s).value)
  {
  }

  /** A line `precision:` + t is a precision directive. */
  lemma PrecisionLine(eng: Engine, st: SessionState, t: string)
    ensures Step(eng, st, "precision:" + t) == PrecisionStep(st, "precision:" + t)
  {
    assert "precision" <= "precision:" + t;
  }

  /** `precision: <n>` sets the precision to n, for every n that fits in 64 bits. */
  lemma PrecisionDirectiveSetsValue(eng: Engine, st: SessionState, pad: string, d: string, rest: string)
    requires AllSpace(pad) && d != [] && AllDigits(d) && DecimalValue(d) <= MaxUint64
    requires rest == [] || IsSpace(rest[0])
    ensures Step(eng, st, "precision:" + (pad + d + rest)) == Next(st.(precision := DecimalValue(d)))
  {
    PrecisionLine(eng, st, pad + d + rest);
    PrecisionOfDigits(pad, d, rest);
  }

  /** `precision:` without a value stops the run. */
  lemma PrecisionValueMissingFatal(eng: Engine, st: SessionState, t: string)
    requires AllSpace(t)
    ensures Step(eng, st, "precision:" + t) == Halt(PrecisionMissing)
  {
    assert "precision" <= "precision:" + t;
    PrecisionMissingValue(t);
  }

  /** `precision` without the colon stops the run. */
  lemma PrecisionColonMissingFatal(eng: Engine, st: SessionState, s: string)
    requires "precision" <= s && !("precision:" <= s)
    ensures Step(eng, st, s).Halt?
  {
    PrecisionWithoutColon(s);
  }

  /**
    The rounding vocabulary, as it acts on the session: every rounding
    directive first clears `skip`; `half_even`, `half_up` and `down` or
    `zero` select a mode; `half_down`, `floor`, `ceiling` and `up` set
    `skip` and keep the mode; anything else is fatal. Neither the precision
    nor any counter changes.
   */
  lemma RoundingDirectiveEffect(eng: Engine, st: SessionState, t: string)
    ensures var tok := TrimSpace(t);
      var r := Step(eng, st, "rounding:" + t);
      && (tok == "half_even" ==> r == Next(st.(mode := eng.modeNearestEven, skip := false)))
      && (tok == "half_up" ==> r == Next(st.(mode := eng.modeNearest, skip := false)))
      && (tok in {"down", "zero"} ==> r == Next(st.(mode := eng.modeDown, skip := false)))
      && (tok in {"half_down", "floor", "ceiling", "up"} ==> r == Next(st.(skip := true)))
      && (tok !in ModeTokens && tok !in SkippedModes ==> r == Halt(RoundingInvalid(tok)))
  {
    RoundingLine(eng, st, t);
    var tok := TrimSpace(t);
    var a := LookupRounding(eng, tok);
    if tok == "half_even" {
      assert a == UseMode(eng.modeNearestEven);
    } else if tok == "half_up" {
      assert a == UseMode(eng.modeNearest);
    } else if tok == "down" || tok == "zero" {
      assert a == UseMode(eng.modeDown);
    } else if tok in SkippedModes {
      assert a == SkipTests;
    } else {
      assert a == UnknownMode;
    }
  }

  /** A line `rounding:` + t is a rounding directive whose token is t trimmed. */
  lemma RoundingLine(eng: Engine, st: SessionState, t: string)
    ensures Step(eng, st, "rounding:" + t) == RoundingStep(eng, st, "rounding:" + t)
    ensures RoundingToken("rounding:" + t) == TrimSpace(t)
  {
    assert "rounding" <= "rounding:" + t;
    TrimPrefixOfConcat("rounding:", t);
  }

  /** `rounding` without the colon is always fatal. */
  lemma RoundingWithoutColonFatal(eng: Engine, st: SessionState, s: string)
    requires "rounding" <= s && !("rounding:" <= s)
    ensures Step(eng, st, s).Halt?
  {
    RoundingWithoutColon(eng, s);
  }

  /** Directives never touch the counters; test lines never touch the session. */
  lemma StepTouchesItsOwnState(eng: Engine, st: SessionState, s: string)
    ensures Step(eng, st, s).Next? && Classify(s) != TestCase ==>
              var st' := Step(eng, st, s).state;
              st'.testCount == st.testCount && st'.success == st.success &&
              st'.fail == st.fail && st'.skipped == st.skipped
    ensures Step(eng, st, s).Next? && Classify(s) == TestCase ==>
              var st' := Step(eng, st, s).state;
              st'.precision == st.precision && st'.mode == st.mode && st'.skip == st.skip
  {
    match Classify(s)
    case Ignored =>
    case PrecisionDirective =>
    case RoundingDirective =>
    case TestCase =>
      if !st.skip {
        match ParseTestLine(s)
        case Err(_) =>
        case Ok(t) =>
          match Evaluate(eng, st.precision, st.mode, t)
          case Err(_) =>
          case Ok(_) =>
      }
  }

  /**
    While `skip` is set, a test line only counts as a skipped test: no
    field count check, no parsing, and the engine is never consulted, so
    the outcome is the same for every engine.
   */
  lemma SkippedTestConsultsNothing(eng: Engine, other: Engine, st: SessionState, s: string)
    requires st.skip && Classify(s) == TestCase
    ensures Step(eng, st, s) == Next(st.(testCount := st.testCount + 1, skipped := st.skipped + 1))
    ensures Step(eng, st, s) == Step(other, st, s)
  {
  }

  /**
    Only the empty line is ignored: a non-empty line of white space is a
    test line with no fields, fatal unless tests are being skipped.
   */
  lemma WhiteSpaceLineIsTest(eng: Engine, st: SessionState, s: string)
    requires s != [] && AllSpace(s)
    ensures Classify(s) == TestCase
    ensures !st.skip ==> Step(eng, st, s) == Halt(TestLineShort(s))
    ensures st.skip ==> Step(eng, st, s) == Next(st.(testCount := st.testCount + 1, skipped := st.skipped + 1))
  {
    KeywordHeads(s);
    assert IsSpace(s[0]);
    FieldsOfAllSpace(s);
  }

  /** An unskipped test line with fewer than six fields is fatal. */
  lemma ShortTestLineFatal(eng: Engine, st: SessionState, s: string)
    requires !st.skip && Classify(s) == TestCase && |Fields(s)| < 6
    ensures Step(eng, st, s) == Halt(TestLineShort(s))
  {
  }

  /**
    An unskipped test line that is not fatal counts one test and exactly
    one of a success or a failure: a success exactly when the engine's
    rendering of the rounded result equals its rendering of the expected
    value.
   */
  lemma TestVerdict(eng: Engine, st: SessionState, s: string)
    requires !st.skip && Classify(s) == TestCase
    ensures Step(eng, st, s).Next? <==>
              ParseTestLine(s).Ok? && Evaluate(eng, st.precision, st.mode, ParseTestLine(s).value).Ok?
    ensures Step(eng, st, s).Next? ==>
              var t := ParseTestLine(s).value;
              var lo := eng.parseReal(t.left, InternalPrecision).value;
              var ro := eng.parseReal(t.right, InternalPrecision).value;
              var ez := eng.parseReal(t.expected, InternalPrecision).value;
              var o := ParseOperator(t.op).value;
              var passed := Rendered(eng, st.precision, st.mode, o, lo, ro) == eng.str(ez);
              Step(eng, st, s).state ==
                if passed then st.(testCount := st.testCount + 1, success := st.success + 1)
                else st.(testCount := st.testCount + 1, fail := st.fail + 1)
  {
  }

  /**
    The fifth field of a test line (the arrow) has no effect on its outcome:
    two test lines whose fields agree elsewhere, however they are spaced,
    have the same effect.
   */
  lemma ArrowIgnored(eng: Engine, st: SessionState, s: string, s': string)
    requires Classify(s) == TestCase && Classify(s') == TestCase
    requires |Fields(s)| >= 6 && |Fields(s')| == |Fields(s)|
    requires forall i :: 0 <= i < |Fields(s)| && i != 4 ==> Fields(s)[i] == Fields(s')[i]
    ensures Step(eng, st, s') == Step(eng, st, s)
  {
    FifthFieldIgnored(s, s');
  }

  // ---------------------------------------------------------------------
  // A whole script
  // ---------------------------------------------------------------------

  /** Running two scripts one after the other is running their concatenation. */
  lemma {:induction false} RunScriptAppend(eng: Engine, st: SessionState, a: seq<string>, b: seq<string>)
    ensures RunScript(eng, st, a + b) ==
              match RunScript(eng, st, a)
              case Next(st') => RunScript(eng, st', b)
              case Halt(e) => Halt(e)
    decreases |a|
  {
    if a == [] {
      assert a + b == b;
    } else {
      assert (a + b)[0] == a[0];
      assert (a + b)[1..] == a[1..] + b;
      match Step(eng, st, a[0])
      case Next(st') => RunScriptAppend(eng, st', a[1..], b);
      case Halt(e) =>
    }
  }

  /** A fatal line ends the run: nothing after it is processed. */
  lemma FatalIsFinal(eng: Engine, st: SessionState, a: seq<string>, b: seq<string>)
    requires RunScript(eng, st, a).Halt?
    ensures RunScript(eng, st, a + b) == RunScript(eng, st, a)
  {
    RunScriptAppend(eng, st, a, b);
  }

  /** The number of test lines in a script. */
  function CountTests(lines: seq<string>): nat {
    if lines == [] then 0
    else (if Classify(lines[0]) == TestCase then 1 else 0) + CountTests(lines[1..])
  }

  /** A script that is not fatal counts each of its test lines exactly once. */
  lemma {:induction false} RunScriptCountsTests(eng: Engine, st: SessionState, lines: seq<string>)
    ensures RunScript(eng, st, lines).Next? ==>
              RunScript(eng, st, lines).state.testCount == st.testCount + CountTests(lines)
    decreases |lines|
  {
    if lines != [] {
      StepTouchesItsOwnState(eng, st, lines[0]);
      match Step(eng, st, lines[0])
      case Next(st') => RunScriptCountsTests(eng, st', lines[1..]);
      case Halt(e) =>
    }
  }

  /** A script made only of ignored lines changes nothing. */
  lemma {:induction false} IgnoredScriptChangesNothing(eng: Engine, st: SessionState, lines: seq<string>)
    requires forall i :: 0 <= i < |lines| ==> IsIgnored(lines[i])
    ensures RunScript(eng, st, lines) == Next(st)
    decreases |lines|
  {
    if lines != [] {
      IgnoredLineChangesNothing(eng, st, lines[0]);
      IgnoredScriptChangesNothing(eng, st, lines[1..]);
    }
  }

  // ---------------------------------------------------------------------
  // The session as the harness holds it: package-level variables
  // ---------------------------------------------------------------------

  /** What `process` leaves behind: keep going, or `log.Fatalf`. */
  datatype Outcome = Continue | Fatal(error: FatalError)

  class Session {
    /** The decimal engine the tests run against. */
    const engine: Engine
    var precision: Uint64
    var mode: int
    var skip: bool
    var testCount: nat
    var success: nat
    var fail: nat
    var skipped: nat

    function State(): SessionState
      reads this
    {
      SessionState(precision, mode, skip, testCount, success, fail, skipped)
    }

    constructor (engine: Engine)
      ensures this.engine == engine && State() == Initial
    {
      this.engine := engine;
      precision, mode, skip := 0, 0, false;
      testCount, success, fail, skipped := 0, 0, 0, 0;
    }

    /** `processPrecision`: a fatal line leaves the precision as it was. */
    method ProcessPrecision(s: string) returns (o: Outcome)
      modifies this
      ensures match ParsePrecision(s)
        case Ok(p) => o == Continue && State() == old(State()).(precision := p)
        case Err(e) => o == Fatal(e) && State() == old(State())
    {
      var arg := TrimSpace(TrimPrefix(s, "precision:"));
      var fields := Fields(arg);
      if |fields| == 0 {
        return Fatal(PrecisionMissing);
      }
      var x := ParseUint(fields[0]);
      if x.None? {
        return Fatal(PrecisionInvalid(fields[0]));
      }
      precision := x.value;
      o := Continue;
    }

    /** `processRounding`: `skip` is cleared before the token is looked up, fatal or not. */
    method ProcessRounding(s: string) returns (o: Outcome)
      modifies this
      ensures match LookupRounding(engine, RoundingToken(s))
        case UseMode(m) => o == Continue && State() == old(State()).(mode := m, skip := false)
        case SkipTests => o == Continue && State() == old(State()).(skip := true)
        case UnknownMode =>
          o == Fatal(RoundingInvalid(RoundingToken(s))) && State() == old(State()).(skip := false)
    {
      var token := TrimSpace(TrimPrefix(s, "rounding:"));
      skip := false;
      match LookupRounding(engine, token) {
        case UseMode(m) =>
          mode := m;
        case SkipTests =>
          skip := true;
        case UnknownMode =>
          return Fatal(RoundingInvalid(token));
      }
      o := Continue;
    }

    /**
      `processTest`: counts the test, then either counts it skipped or runs
      it; a fatal test line has already been counted.
     */
    method ProcessTest(s: string) returns (o: Outcome)
      modifies this
      ensures match TestStep(engine, old(State()), s)
        case Next(st) => o == Continue && State() == st
        case Halt(e) => o == Fatal(e) && State() == old(State()).(testCount := old(testCount) + 1)
    {
      ghost var st := State();
      testCount := testCount + 1;
      if skip {
        skipped := skipped + 1;
        return Continue;
      }
      var parsed := ParseTestLine(s);
      if parsed.Err? {
        assert TestStep(engine, st, s) == Halt(parsed.error);
        return Fatal(parsed.error);
      }
      assert TestStep(engine, st, s) ==
        TestOutcome(st, Evaluate(engine, st.precision, st.mode, parsed.value));
      o := RunTest(parsed.value, st);
    }

    /**
      The second half of `processTest`: parses the operands and the expected
      value, applies the operator, and counts a success or a failure. The
      ghost `before` is the session as it was before the test was counted.
     */
    method RunTest(t: TestLine, ghost before: SessionState) returns (o: Outcome)
      requires State() == before.(testCount := before.testCount + 1)
      modifies this
      ensures match TestOutcome(before, Evaluate(engine, before.precision, before.mode, t))
        case Next(d) => o == Continue && State() == d
        case Halt(e) => o == Fatal(e) && State() == old(State())
    {
      var lo := engine.parseReal(t.left, InternalPrecision);
      if lo.None? {
        return Fatal(NumberInvalid(t.left));
      }
      var ro := engine.parseReal(t.right, InternalPrecision);
      if ro.None? {
        return Fatal(NumberInvalid(t.right));
      }
      var ez := engine.parseReal(t.expected, InternalPrecision);
      if ez.None? {
        return Fatal(NumberInvalid(t.expected));
      }
      var x := engine.setMode(lo.value, mode);
      var y := engine.setMode(ro.value, mode);
      var z: Real;
      match ParseOperator(t.op) {
        case Some(op) =>
          z := Apply(engine, op, x, y);
        case None =>
          return Fatal(OperatorInvalid(t.op));
      }
      z := engine.setPrecision(z, precision);
      if engine.str(z) != engine.str(ez.value) {
        fail := fail + 1;
      } else {
        success := success + 1;
      }
      o := Continue;
    }

    /** `process`: routes one line by its prefix. */
    method Process(s: string) returns (o: Outcome)
      modifies this
      ensures match Step(engine, old(State()), s)
        case Next(st) => o == Continue && State() == st
        case Halt(e) => o == Fatal(e)
    {
      match Classify(s)
      case Ignored =>
        o := Continue;
      case PrecisionDirective =>
        o := ProcessPrecision(s);
      case RoundingDirective =>
        o := ProcessRounding(s);
      case TestCase =>
        o := ProcessTest(s);
    }

    /**
      The line loop of `main`: feeds the lines in order and stops at the
      first fatal one. A run that completes keeps every test accounted for.
     */
    method Run(lines: seq<string>) returns (o: Outcome)
      modifies this
      ensures match RunScript(engine, old(State()), lines)
        case Next(st) => o == Continue && State() == st
        case Halt(e) => o == Fatal(e)
      ensures o == Continue && Balanced(old(State())) ==> Balanced(State())
    {
      var i := 0;
      while i < |lines|
        invariant 0 <= i <= |lines|
        invariant RunScript(engine, old(State()), lines) == RunScript(engine, State(), lines[i..])
      {
        assert lines[i..][1..] == lines[i + 1..];
        o := Process(lines[i]);
        if o.Fatal? {
          return;
        }
        i := i + 1;
      }
      o := Continue;
    }
  }
}

=== FILE: number.dfy ===
/**
  The interface the harness uses of the external decimal engine (the Go
  package `github.com/djfritz/number`). The engine itself is not part of
  this model: its value type is abstract and every operation the harness
  calls is a field of an `Engine` value, so every property proved about
  the harness holds for whatever engine it is run against.
 */
module Number {
  import opened Wrappers
  import opened GoStrings

  /** A `*number.Real`. */
  type Real

  /** The working precision used to parse operands and expected values. */
  const InternalPrecision: nat := 34

  datatype Engine = Engine(
    /** The integer codes of `number.ModeNearestEven`, `number.ModeNearest` and `number.ModeDown`. */
    modeNearestEven: int,
    modeNearest: int,
    modeDown: int,
    /** `number.ParseReal(s, precision)`; `None` is a returned error. */
    parseReal: (string, nat) -> Option<Real>,
    /** `x.SetMode(mode)`, as the value it leaves behind. */
    setMode: (Real, int) -> Real,
    /** `x.Add(y)`, `x.Div(y)`, `x.Mul(y)`, `x.Pow(y)`. */
    add: (Real, Real) -> Real,
    div: (Real, Real) -> Real,
    mul: (Real, Real) -> Real,
    pow: (Real, Real) -> Real,
    /** `x.SetPrecision(p)`, as the value it leaves behind. */
    setPrecision: (Real, Uint64) -> Real,
    /** `x.String()`: the canonical rendering that results are compared by. */
    str: Real -> string
  )
}

=== FILE: scenarios.dfy ===
/**
  Two short scripts worked through end to end, for every engine: a
  rounding mode the engine cannot honour skips the test that follows it,
  and a supported mode runs the test and counts exactly one verdict.
 */
module Scenarios {
  import opened Wrappers
  import opened GoStrings
  import opened Number
  import opened Script
  import opened Harness

  /** A line starting with `t` is none of the keywords, so it is a test line. */
  lemma StartsWithT(s: string)
    requires s != [] && s[0] == 't'
    ensures Classify(s) == TestCase
  {
    KeywordHeads(s);
  }

  /** `rounding: floor` keeps the mode and sets `skip`. */
  lemma FloorLine(eng: Engine, st: SessionState)
    ensures Step(eng, st, "rounding: floor") == Next(st.(skip := true))
  {
    assert "rounding:" + (" " + "floor" + []) == "rounding: floor" by { }
    assert AllSpace(" ");
    TrimSpaceUnpads(" ", "floor", []);
    RoundingDirectiveEffect(eng, st, " " + "floor" + []);
  }

  /** `rounding: half_even` selects nearest-even rounding and clears `skip`. */
  lemma HalfEvenLine(eng: Engine, st: SessionState)
    ensures Step(eng, st, "rounding: half_even") == Next(st.(mode := eng.modeNearestEven, skip := false))
  {
    assert "rounding:" + (" " + "half_even" + []) == "rounding: half_even" by { }
    assert AllSpace(" ");
    TrimSpaceUnpads(" ", "half_even", []);
    RoundingDirectiveEffect(eng, st, " " + "half_even" + []);
  }

  /** `precision: 9` sets the precision to 9. */
  lemma PrecisionNineLine(eng: Engine, st: SessionState)
    ensures Step(eng, st, "precision: 9") == Next(st.(precision := 9))
  {
    assert "precision:" + (" " + "9" + "") == "precision: 9" by { }
    assert DecimalValue("9") == 9 by { assert "9"[..0] == []; }
    assert AllSpace(" ");
    PrecisionDirectiveSetsValue(eng, st, " ", "9", "");
  }

  lemma Test1Words()
    ensures Join(["test1", "add", "'1'", "'2'", "->", "'3'"]) == "test1 add '1' '2' -> '3'"
  {
    var ws := ["test1", "add", "'1'", "'2'", "->", "'3'"];
    assert Join(ws[5..]) == "'3'";
    assert Join(ws[4..]) == "-> '3'";
    assert Join(ws[3..]) == "'2' -> '3'";
    assert Join(ws[2..]) == "'1' '2' -> '3'";
    assert Join(ws[1..]) == "add '1' '2' -> '3'";
  }

  lemma QuotedDigit(d: char)
    requires d != '\''
    ensures TrimQuotes(['\'', d, '\'']) == [d]
  {
    TrimQuotesUnpads([d], 1, 1);
    assert Repeat('\'', 1) == "'";
    assert ['\'', d, '\''] == "'" + [d] + "'";
  }

  lemma Test1Parses()
    ensures ParseTestLine("test1 add '1' '2' -> '3'") == Ok(TestLine("test1", "add", "1", "2", "3"))
  {
    var ws := ["test1", "add", "'1'", "'2'", "->", "'3'"];
    Test1Words();
    assert forall i :: 0 <= i < |ws| ==> ws[i] != [] && NoSpace(ws[i]);
    TestLineOfWords(ws);
    QuotedDigit('1');
    QuotedDigit('2');
    QuotedDigit('3');
  }

  /**
    `rounding: floor` followed by a test: the test is counted as skipped,
    whatever the engine, and nothing else is counted.
   */
  lemma FloorSkipsExample(eng: Engine)
    ensures RunScript(eng, Initial, ["rounding: floor", "test3 add '1' '2' -> '3'"]) ==
              Next(Initial.(skip := true, testCount := 1, skipped := 1))
  {
    var r, t := "rounding: floor", "test3 add '1' '2' -> '3'";
    FloorLine(eng, Initial);
    StartsWithT(t);
    SkippedTestConsultsNothing(eng, eng, Initial.(skip := true), t);
    assert [r, t][1..] == [t];
  }

  /** The test line `test1 add '1' '2' -> '3'`, unskipped, counts one success or one failure. */
  lemma Test1Line(eng: Engine, st: SessionState)
    requires !st.skip
    requires eng.parseReal("1", InternalPrecision).Some?
    requires eng.parseReal("2", InternalPrecision).Some?
    requires eng.parseReal("3", InternalPrecision).Some?
    ensures var one := eng.parseReal("1", InternalPrecision).value;
      var two := eng.parseReal("2", InternalPrecision).value;
      var three := eng.parseReal("3", InternalPrecision).value;
      Step(eng, st, "test1 add '1' '2' -> '3'") ==
        Next(if Rendered(eng, st.precision, st.mode, Add, one, two) == eng.str(three)
             then st.(testCount := st.testCount + 1, success := st.success + 1)
             else st.(testCount := st.testCount + 1, fail := st.fail + 1))
  {
    var t := "test1 add '1' '2' -> '3'";
    StartsWithT(t);
    Test1Parses();
    TestVerdict(eng, st, t);
  }

  /**
    `precision: 9`, `rounding: half_even`, then `test1 add '1' '2' -> '3'`:
    one test, no skip, and a success exactly when the engine's sum of 1 and
    2, at precision 9 under nearest-even rounding, renders as 3 does.
   */
  lemma HalfEvenAddExample(eng: Engine)
    requires eng.parseReal("1", InternalPrecision).Some?
    requires eng.parseReal("2", InternalPrecision).Some?
    requires eng.parseReal("3", InternalPrecision).Some?
    ensures var r := RunScript(eng, Initial,
                               ["precision: 9", "rounding: half_even", "test1 add '1' '2' -> '3'"]);
      var one := eng.parseReal("1", InternalPrecision).value;
      var two := eng.parseReal("2", InternalPrecision).value;
      var three := eng.parseReal("3", InternalPrecision).value;
      && r.Next?
      && r.state.precision == 9 && r.state.mode == eng.modeNearestEven && !r.state.skip
      && r.state.testCount == 1 && r.state.skipped == 0 && r.state.success + r.state.fail == 1
      && (r.state.success == 1 <==> Rendered(eng, 9, eng.modeNearestEven, Add, one, two) == eng.str(three))
  {
    var p, m, t := "precision: 9", "rounding: half_even", "test1 add '1' '2' -> '3'";
    var st1 := Initial.(precision := 9);
    var st2 := st1.(mode := eng.modeNearestEven);
    PrecisionNineLine(eng, Initial);
    HalfEvenLine(eng, st1);
    Test1Line(eng, st2);
    var lines := [p, m, t];
    assert lines[1..] == [m, t];
    assert lines[1..][1..] == [t];
  }
}

=== FILE: script.dfy ===
/**
  The pure decisions the harness takes on one script line: which kind of
  line it is, what a `precision` or `rounding` directive asks for, how a
  test line splits into operands, and how a test is evaluated against the
  engine and its expected value.
 */
module Script {
  import opened Wrappers
  import opened GoStrings
  import opened Number

  /** Why a run stops. Each is a `log.Fatalf` (or a panic) in the harness. */
  datatype FatalError =
    | PrecisionMissing                  // `fields[0]` of an empty field list panics
    | PrecisionInvalid(field: string)   // `strconv.ParseUint` refused the field
    | RoundingInvalid(token: string)    // not in the rounding vocabulary
    | TestLineShort(line: string)       // fewer than six fields
    | NumberInvalid(token: string)      // `number.ParseReal` refused an operand or expected value
    | OperatorInvalid(op: string)       // not one of the four supported operators

  // ---------------------------------------------------------------------
  // Line classification
  // ---------------------------------------------------------------------

  datatype LineKind = Ignored | PrecisionDirective | RoundingDirective | TestCase

  /** Blank lines, comments, and directives that do not apply to the engine. */
  predicate IsIgnored(s: string) {
    s == "" || "--" <= s || "version" <= s || "extended" <= s ||
    "maxexponent" <= s || "minexponent" <= s
  }

  /**
    The ordered chain of prefix checks. Because no keyword is a prefix of
    another, the order never misroutes a line: a line is a precision
    directive exactly when it starts with `precision`, a rounding
    directive exactly when it starts with `rounding`, and a test case
    exactly when it is neither of these nor ignored.
   */
  function Classify(s: string): (k: LineKind)
    ensures k == Ignored <==> IsIgnored(s)
    ensures k == PrecisionDirective <==> "precision" <= s
    ensures k == RoundingDirective <==> "rounding" <= s
    ensures k == TestCase <==> !IsIgnored(s) && !("precision" <= s) && !("rounding" <= s)
  {
    KeywordHeads(s);
    if s == "" then Ignored
    else if "--" <= s then Ignored
    else if "version" <= s then Ignored
    else if "extended" <= s then Ignored
    else if "maxexponent" <= s then Ignored
    else if "minexponent" <= s then Ignored
    else if "precision" <= s then PrecisionDirective
    else if "rounding" <= s then RoundingDirective
    else TestCase
  }

  /** Each keyword fixes the first character of a line that starts with it. */
  lemma KeywordHeads(s: string)
    ensures "--" <= s ==> s[0] == '-'
    ensures "version" <= s ==> s[0] == 'v'
    ensures "extended" <= s ==> s[0] == 'e'
    ensures "maxexponent" <= s ==> s[0] == 'm'
    ensures "minexponent" <= s ==> s[0] == 'm'
    ensures "precision" <= s ==> s[0] == 'p'
    ensures "rounding" <= s ==> s[0] == 'r'
  {
  }

  // ---------------------------------------------------------------------
  // Directives
  // ---------------------------------------------------------------------

  /**
    The first field after `precision:`, read as a 64-bit unsigned decimal:
    fatal when there is no field, the value of a first field made only of
    digits when that value fits in 64 bits, and otherwise fatal naming the
    field.
   */
  function ParsePrecision(s: string): (r: Result<Uint64, FatalError>)
    ensures var fields := Fields(TrimSpace(TrimPrefix(s, "precision:")));
      && (r == Err(PrecisionMissing) <==> fields == [])
      && (r.Ok? <==> fields != [] && AllDigits(fields[0]) && DecimalValue(fields[0]) <= MaxUint64)
      && (r.Ok? ==> r.value == DecimalValue(fields[0]))
      && (r.Err? && fields != [] ==> r == Err(PrecisionInvalid(fields[0])))
  {
    var fields := Fields(TrimSpace(TrimPrefix(s, "precision:")));
    if fields == [] then Err(PrecisionMissing)
    else match ParseUint(fields[0])
      case Some(x) => Ok(x)
      case None => Err(PrecisionInvalid(fields[0]))
  }

  /** The trimmed text after `rounding:`. */
  function RoundingToken(s: string): string {
    TrimSpace(TrimPrefix(s, "rounding:"))
  }

  datatype RoundingAction = UseMode(mode: int) | SkipTests | UnknownMode

  /** The rounding modes the engine cannot honour: tests under them are skipped. */
  const SkippedModes: set<string> := {"half_down", "floor", "ceiling", "up"}

  /** The rounding tokens that select one of the engine's modes. */
  const ModeTokens: set<string> := {"half_even", "half_up", "down", "zero"}

  /**
    The rounding vocabulary: a token selects a mode exactly when it is one
    of ModeTokens, skips exactly when it is one of SkippedModes, and is
    unknown otherwise.
   */
  function LookupRounding(eng: Engine, token: string): (r: RoundingAction)
    ensures r.UseMode? <==> token in ModeTokens
    ensures r.SkipTests? <==> token in SkippedModes
    ensures r.UseMode? ==> r.mode == eng.modeNearestEven || r.mode == eng.modeNearest || r.mode == eng.modeDown
  {
    if token == "half_even" then UseMode(eng.modeNearestEven)
    else if token == "half_up" then UseMode(eng.modeNearest)
    else if token == "down" || token == "zero" then UseMode(eng.modeDown)
    else if token in SkippedModes then SkipTests
    else UnknownMode
  }

  // ---------------------------------------------------------------------
  // Test lines
  // ---------------------------------------------------------------------

  /** What a test line names: its operator, and its operands and expected value with quotes trimmed. */
  datatype TestLine = TestLine(name: string, op: string, left: string, right: string, expected: string)

  function TrimQuotes(s: string): string {
    Trim(s, "'")
  }

  /**
    Splits a test line into whitespace fields and picks fields 0, 1, 2, 3
    and 5 by position; field 4 (the arrow) is never looked at. Fails
    exactly when there are fewer than six fields.
   */
  function ParseTestLine(s: string): (r: Result<TestLine, FatalError>)
    ensures r.Err? <==> |Fields(s)| < 6
    ensures r.Err? ==> r.error == TestLineShort(s)
  {
    var fields := Fields(s);
    if |fields| < 6 then Err(TestLineShort(s))
    else Ok(TestLine(fields[0], fields[1], TrimQuotes(fields[2]), TrimQuotes(fields[3]),
                     TrimQuotes(fields[5])))
  }

  datatype Operator = Add | Divide | Multiply | Power

  /** The name a test line gives each operator. */
  function Name(o: Operator): string {
    match o
    case Add => "add"
    case Divide => "divide"
    case Multiply => "multiply"
    case Power => "power"
  }

  /** The operation dispatch table: only the four names are accepted, each for its own operator. */
  function ParseOperator(op: string): (r: Option<Operator>)
    ensures r.Some? <==> op in {"add", "divide", "multiply", "power"}
    ensures r.Some? ==> Name(r.value) == op
  {
    if op == "add" then Some(Add)
    else if op == "divide" then Some(Divide)
    else if op == "multiply" then Some(Multiply)
    else if op == "power" then Some(Power)
    else None
  }

  /** Every operator's name is dispatched to that operator. */
  lemma ParseOperatorName(o: Operator)
    ensures ParseOperator(Name(o)) == Some(o)
  {
  }

  function Apply(eng: Engine, o: Operator, x: Real, y: Real): Real {
    match o
    case Add => eng.add(x, y)
    case Divide => eng.div(x, y)
    case Multiply => eng.mul(x, y)
    case Power => eng.pow(x, y)
  }

  /** The string the engine renders for `o` applied to `x` and `y` in rounding mode `mode`, rounded to `precision`. */
  function Rendered(eng: Engine, precision: Uint64, mode: int, o: Operator, x: Real, y: Real): string {
    eng.str(eng.setPrecision(Apply(eng, o, eng.setMode(x, mode), eng.setMode(y, mode)), precision))
  }

  /**
    Runs one test against the engine: parses the two operands and the
    expected value (in that order) at the internal precision, applies the
    operator with the session's rounding mode on both operands, rounds the
    result to the session's precision and compares renderings. A number the
    engine cannot parse, or an operator outside the four supported ones, is
    fatal; the operands are all parsed before the operator is looked at.
   */
  function Evaluate(eng: Engine, precision: Uint64, mode: int, t: TestLine): (r: Result<bool, FatalError>)
    ensures r.Ok? <==>
              eng.parseReal(t.left, InternalPrecision).Some? &&
              eng.parseReal(t.right, InternalPrecision).Some? &&
              eng.parseReal(t.expected, InternalPrecision).Some? &&
              t.op in {"add", "divide", "multiply", "power"}
    ensures r.Err? && r.error.OperatorInvalid? ==>
              eng.parseReal(t.left, InternalPrecision).Some? &&
              eng.parseReal(t.right, InternalPrecision).Some? &&
              eng.parseReal(t.expected, InternalPrecision).Some?
  {
    match eng.parseReal(t.left, InternalPrecision)
    case None => Err(NumberInvalid(t.left))
    case Some(lo) =>
      match eng.parseReal(t.right, InternalPrecision)
      case None => Err(NumberInvalid(t.right))
      case Some(ro) =>
        match eng.parseReal(t.expected, InternalPrecision)
        case None => Err(NumberInvalid(t.expected))
        case Some(ez) =>
          match ParseOperator(t.op)
          case None => Err(OperatorInvalid(t.op))
          case Some(o) => Ok(Rendered(eng, precision, mode, o, lo, ro) == eng.str(ez))
  }

  // ---------------------------------------------------------------------
  // Properties of the directive and test-line parsers
  // ---------------------------------------------------------------------

  /**
    `precision:` followed by blanks and a decimal that fits in 64 bits sets
    exactly that precision, whatever follows the number after a blank.
   */
  lemma PrecisionOfDigits(pad: string, d: string, rest: string)
    requires AllSpace(pad) && d != [] && AllDigits(d) && DecimalValue(d) <= MaxUint64
    requires rest == [] || IsSpace(rest[0])
    ensures ParsePrecision("precision:" + (pad + d + rest)) == Ok(DecimalValue(d))
  {
    var t := pad + (d + rest);
    assert pad + d + rest == t;
    TrimPrefixOfConcat("precision:", t);
    DigitsHaveNoSpace(d);
    FieldsOfPaddedWord(pad, d, rest);
    var fields := Fields(TrimSpace(t));
    assert fields != [] && fields[0] == d;
    assert ParseUint(d) == Some(DecimalValue(d));
  }

  /** `precision:` with nothing after it is fatal (Go's index out of range). */
  lemma PrecisionMissingValue(t: string)
    requires AllSpace(t)
    ensures ParsePrecision("precision:" + t) == Err(PrecisionMissing)
  {
    TrimPrefixOfConcat("precision:", t);
    FieldsOfTrimSpace(t);
    assert t == t + [];
    FieldsSkipsLeadingSpace(t, []);
  }

  /**
    A line that starts with `precision` but not with `precision:` keeps its
    keyword as its first field, which is never a number: always fatal.
   */
  lemma PrecisionWithoutColon(s: string)
    requires "precision" <= s && !("precision:" <= s)
    ensures ParsePrecision(s).Err?
  {
    KeywordHeads(s);
    FieldsOfTrimSpace(s);
    FirstField(s);
  }

  /**
    A line that starts with `rounding` but not with `rounding:` keeps its
    keyword in its token, which is never in the vocabulary: always fatal.
   */
  lemma RoundingWithoutColon(eng: Engine, s: string)
    requires "rounding" <= s && !("rounding:" <= s)
    ensures LookupRounding(eng, RoundingToken(s)) == UnknownMode
  {
    assert TrimPrefix(s, "rounding:") == s;
    assert s[0] == 'r' && !IsSpace(s[0]);
    assert LeadingCount(s, IsSpace) == 0;
    var tok := RoundingToken(s);
    assert tok == [] || tok[0] == 'r';
    assert tok != "half_even" && tok != "half_up" && tok != "down" && tok != "zero";
    assert tok !in SkippedModes;
  }

  /**
    The trimmed quotes: every leading and trailing `'` goes, however many
    there are, and the quote-free text inside is kept whole.
   */
  lemma TrimQuotesUnpads(w: string, i: nat, j: nat)
    requires w == [] || (w[0] != '\'' && w[|w| - 1] != '\'')
    ensures TrimQuotes(Repeat('\'', i) + w + Repeat('\'', j)) == w
  {
    TrimFuncUnpads(c => c in "'", w, '\'', i, j);
  }

  /** Words joined by blanks parse by position; the fifth word plays no part. */
  lemma TestLineOfWords(ws: seq<string>)
    requires |ws| >= 6
    requires forall i :: 0 <= i < |ws| ==> ws[i] != [] && NoSpace(ws[i])
    ensures ParseTestLine(Join(ws)) ==
              Ok(TestLine(ws[0], ws[1], TrimQuotes(ws[2]), TrimQuotes(ws[3]), TrimQuotes(ws[5])))
  {
    FieldsOfJoin(ws);
  }

  /**
    Two lines whose whitespace fields agree everywhere except in the fifth
    field (the arrow) parse to the same test, however the fields are spaced.
   */
  lemma FifthFieldIgnored(s: string, s': string)
    requires |Fields(s)| >= 6 && |Fields(s')| == |Fields(s)|
    requires forall i :: 0 <= i < |Fields(s)| && i != 4 ==> Fields(s)[i] == Fields(s')[i]
    ensures ParseTestLine(s) == ParseTestLine(s')
  {
    var f, g := Fields(s), Fields(s');
    assert f[0] == g[0] && f[1] == g[1] && f[2] == g[2] && f[3] == g[3] && f[5] == g[5];
  }
}

=== FILE: wrappers.dfy ===
/** Failure-carrying wrapper types shared by the other modules. */
module Wrappers {

  datatype Option<+T> = None | Some(value: T)

  datatype Result<+T, +E> = Ok(value: T) | Err(error: E)
}
